=== FILE: README.md ===
# Nonlinear conjugate gradient solver — a Dafny model

This project models the nonlinear conjugate gradient (NLCG) solver of the
argmin optimisation library (`argmin/src/solver/conjugategradient/nonlinear_cg.rs`),
the method of chapter 5 of Nocedal & Wright, *Numerical Optimization* (2006),
and proves properties of that model with Dafny 4.11.

The solver keeps a search direction `p` (absent before `init`), the last
blend coefficient β (a NaN sentinel until the first step), a restart period
`restart_iter` (default `u64::MAX`) and an optional Powell orthogonality
threshold. `init` evaluates the cost and gradient at x₀ and sets `p := -g₀`.
`next_iter` takes g_k from the driver's cache or from one gradient call,
runs the line search from x_k along `p`, evaluates g_{k+1}, decides the two
restarts, sets β (0 on a restart, otherwise the β rule's value for
(g_k, g_{k+1}, p_k)), stores `p := -g_{k+1} + β·p_k`, evaluates the cost,
and reports the new iterate, cost, gradient and a key/value list
`beta`, `restart_iter`, `restart_orthogonality`.

Files:

- `wrappers.dfy` — `Option` and `Result`.
- `vectors.dfy` — vectors as `seq<real>`: `Scale`, `Add`, `Dot`, `NormSq`.
- `restart.dfy` — the `u64` type, the iteration restart and Powell's test.
- `nonlinear_cg.dfy` — the solver record, `New`, the two setters, builder
  chains (`Configure`), `Init` and `NextIter`.
- `nonlinear_cg_properties.dfy` — lemmas relating calls and edge cases.

How the model reads the code:

- The objective oracle (`apply`, `gradient`), the nested line-search run and
  the β rule are function values. The line search is a function from
  (oracle, x_k, g_k, f_k, p) to the next iterate or an error.
- Every call returns an `Outcome`: the solver after the call, the
  collaborator calls it made in order (`CostAt`, `GradientAt`,
  `LineSearchFrom`), and the result. The solver after the call matters because the
  code updates `self.p` and `self.beta` before the final cost evaluation, so
  a failure of that evaluation leaves the new direction stored.
- An error returned by a collaborator and passed on with `?` is
  `Propagated(e)`. Three panics of the code are `Panic(reason)`:
  unwrapping the absent direction (`next_iter` before `init`), unwrapping an
  absent iterate, and `k % restart_iter` with a period of zero. Two further
  unwraps belong to the line-search run and are absorbed by its abstraction
  (see "Left out").
- The NaN sentinel of β is `None`. `norm().powi(2)` is `Dot(g, g)`, exact
  over the reals. For the zero gradient the code's ratio is 0/0, a NaN in IEEE
  arithmetic, and a NaN never compares `>=`. The model therefore answers "no
  restart" there.
- The iteration restart is evaluated as `(k % N == 0) && k != 0`. The modulo
  comes first, so a period of zero panics even at k = 0.
- A run stays in one space ℝⁿ, n the dimension of the stored direction
  (`Conforming`). The iterate and a cached gradient have dimension n, and at
  points of dimension n the oracle's gradient and the line search's result
  have dimension n. Nothing is asked of the collaborators on other
  dimensions, so an oracle defined in every dimension is admitted
  (`EveryDimensionOracleConforms`).

Some behaviour of the code differs from what a caller might expect from the
names and doc comments of the solver. The model follows the code:

- The doc comment of `restart_iters` (lines 61-63) speaks of the number of
  iterations after which a restart is performed, so a caller might expect
  `restart_iters(1)` to give steepest descent. The code never restarts at k = 0,
  so the direction stored by the first step still blends in the β rule.
  `PeriodOneFirstStepCounterexample` shows a run that stores p = -2 where
  steepest descent gives -1. From k = 1 on, every step stores -g_{k+1}
  (`PeriodOneIsSteepestDescentFromIterationOne`).
- A caller might expect the period to be a positive number of iterations.
  The setter accepts 0, and the next step then panics in the modulo
  (`ZeroPeriodPanics`).
- A caller might expect a failed step to leave the solver unchanged. In the
  code the line search's stored direction is replaced before the run (line
  128), so every failure after that point changes it; the model does not
  keep that field (see "Left out"). Apart from it, every failure leaves the
  solver unchanged except a failure of the final cost evaluation, which
  comes after `p` and β are stored (`CostFailureKeepsNewDirection`).
- Stepping before `init` panics rather than returning an error
  (`NextIterBeforeInitPanics`).

## Model

| member | source | states |
|---|---|---|
| NonlinearCg.New | argmin/src/solver/conjugategradient/nonlinear_cg.rs:50-59 | a new solver has no direction, β unset (the NaN sentinel), period `u64::MAX`, Powell's test off, and keeps the given line search and β rule |
| NonlinearCg.RestartIters | argmin/src/solver/conjugategradient/nonlinear_cg.rs:65-68 | sets the restart period to the given value; direction, β, threshold and collaborators are unchanged |
| NonlinearCg.RestartOrthogonality | argmin/src/solver/conjugategradient/nonlinear_cg.rs:79-82 | enables Powell's test with threshold v; direction, β, period and collaborators are unchanged |
| NonlinearCgProperties.ConfigureLastWins | argmin/src/solver/conjugategradient/nonlinear_cg.rs:61-82 | any chain of setters, in any order and with repeats, configures the solver as applying each setter once with its last value |
| NonlinearCgProperties.ConfigureKeepsIterationState | argmin/src/solver/conjugategradient/nonlinear_cg.rs:61-82 | a chain of setters never changes p, β, the line search or the β rule |
| NonlinearCg.Init | argmin/src/solver/conjugategradient/nonlinear_cg.rs:100-112 | evaluates the cost and then the gradient at x₀ and nothing else; on success returns x₀, f(x₀) and ∇f(x₀) as the oracle gave them and stores p = -g₀ elementwise, changing nothing else; a missing iterate panics; an oracle error is returned and the solver is left unchanged |
| NonlinearCgProperties.InitPropagatesUnchanged | argmin/src/solver/conjugategradient/nonlinear_cg.rs:105-107 | an error from `init` is the error of the last oracle call it made, and every earlier call succeeded |
| NonlinearCgProperties.InitEstablishesDirection | argmin/src/solver/conjugategradient/nonlinear_cg.rs:105-108 | after a successful `init` the direction exists and has the gradients' dimension |
| NonlinearCgProperties.FirstSearchIsSteepestDescent | argmin/src/solver/conjugategradient/nonlinear_cg.rs:105-137 | the step after `init`, with g₀ cached by the driver, first runs the line search along -g₀ |
| NonlinearCg.NextIter | argmin/src/solver/conjugategradient/nonlinear_cg.rs:114-179 | stepping before `init`, or with no iterate, panics without calling anything, and those panics happen exactly then. A step succeeds exactly when p and the iterate are present, the period is positive and every collaborator call succeeds; a period-zero panic happens only for period 0. Any failure before the cost evaluation leaves the modelled solver unchanged. A failing step reports the calls it made in the same fixed order, up to and including the failing one; each failing collaborator call returns its own error unchanged, even with period 0; the period-zero panic happens only after the gradient at x_{k+1} has succeeded. On success the result is the line search's point, its gradient and its cost, in the call order gradient at x_k (uncached only), line search along the old p, gradient at x_{k+1}, cost at x_{k+1}. β is 0 on either restart and otherwise the rule's value for (g_k, g_{k+1}, p_k). The new p is -g_{k+1} + β·p_k, and the key/value list carries exactly that β and the two restart flags |
| NonlinearCgProperties.NextIterBeforeInitPanics | argmin/src/solver/conjugategradient/nonlinear_cg.rs:119-119 | stepping a freshly constructed solver panics on the absent direction, calls no collaborator and changes nothing |
| NonlinearCgProperties.NextIterUsesCachedGradient | argmin/src/solver/conjugategradient/nonlinear_cg.rs:119-128 | the first call of a step is a gradient evaluation at x_k exactly when no gradient is cached; with a cached gradient it is the line search from x_k with that gradient |
| NonlinearCgProperties.NextIterCallCounts | argmin/src/solver/conjugategradient/nonlinear_cg.rs:119-169 | a successful step makes one line-search run, one cost evaluation and two gradient evaluations, or one when g_k was cached |
| NonlinearCgProperties.NextIterPropagatesUnchanged | argmin/src/solver/conjugategradient/nonlinear_cg.rs:121-169 | an error from a step is the unchanged error of the last call the step made, and every earlier call succeeded |
| NonlinearCgProperties.CostFailureKeepsNewDirection | argmin/src/solver/conjugategradient/nonlinear_cg.rs:161-169 | when only the final cost evaluation fails, its error is returned while the solver already stores β (0 on either restart, else the rule's value for (g_k, g_{k+1}, p_k)) and the direction -g_{k+1} + β·p_k |
| Restart.IterationRestart | argmin/src/solver/conjugategradient/nonlinear_cg.rs:152-153 | for a positive period n, iteration k restarts exactly when k > 0 and k is reached from 0 in whole steps of n |
| Restart.IterationRestartNeverAtZero | argmin/src/solver/conjugategradient/nonlinear_cg.rs:152-153 | iteration 0 never restarts, whatever the period |
| Restart.IterationRestartPeriodOne | argmin/src/solver/conjugategradient/nonlinear_cg.rs:152-153 | with period 1 every iteration from 1 on restarts |
| Restart.IterationRestartDefaultPeriod | argmin/src/solver/conjugategradient/nonlinear_cg.rs:152-153 | with period `u64::MAX` only iteration `u64::MAX` restarts |
| Restart.IterationRestartAtMultiples | argmin/src/solver/conjugategradient/nonlinear_cg.rs:152-153 | every positive multiple of the period that fits in a `u64` restarts |
| NonlinearCgProperties.NewSolverRestartsOnlyAtLastIteration | argmin/src/solver/conjugategradient/nonlinear_cg.rs:50-59 | a solver from `new` restarts by iteration count only at iteration `u64::MAX` |
| NonlinearCgProperties.ZeroPeriodPanics | argmin/src/solver/conjugategradient/nonlinear_cg.rs:152-153 | with period 0 a step whose gradients and line search succeed panics in the modulo, even at iteration 0, and leaves the solver unchanged |
| Restart.OrthogonalityRestart | argmin/src/solver/conjugategradient/nonlinear_cg.rs:147-150 | Powell's test is false with no threshold or a zero gradient; otherwise it holds exactly when abs(⟨g_{k+1}, g_k⟩) ≥ ν·‖g_{k+1}‖², the division-free form of the ratio test |
| Restart.NonPositiveThresholdAlwaysRestarts | argmin/src/solver/conjugategradient/nonlinear_cg.rs:147-150 | a threshold ν ≤ 0 restarts whenever the new gradient is nonzero |
| Restart.OrthogonalGradientsDoNotRestart | argmin/src/solver/conjugategradient/nonlinear_cg.rs:147-150 | exactly orthogonal consecutive gradients never restart under a positive threshold |
| NonlinearCg.NewDirection | argmin/src/solver/conjugategradient/nonlinear_cg.rs:161-166 | the new direction is -g_{k+1} + β·p_k elementwise, and for β = 0 it is the steepest-descent direction -g_{k+1} |
| NonlinearCgProperties.RestartStoresSteepestDescent | argmin/src/solver/conjugategradient/nonlinear_cg.rs:155-166 | when a step reports either restart flag, it reports β = 0 and stores -g_{k+1} |
| NonlinearCgProperties.NoRestartUsesRule | argmin/src/solver/conjugategradient/nonlinear_cg.rs:155-159 | when neither flag is reported, the reported β is the rule's value for (g_k, g_{k+1}) and the direction before the step |
| NonlinearCgProperties.PeriodOneIsSteepestDescentFromIterationOne | argmin/src/solver/conjugategradient/nonlinear_cg.rs:152-166 | with period 1 every successful step from iteration 1 on stores -g_{k+1} |
| NonlinearCgProperties.PeriodOneStillBlendsAtIterationZero | argmin/src/solver/conjugategradient/nonlinear_cg.rs:152-159 | with period 1 and Powell's test off, the step at iteration 0 still takes β from the rule |
| NonlinearCgProperties.PeriodOneFirstStepCounterexample | argmin/src/solver/conjugategradient/nonlinear_cg.rs:152-166 | a concrete one-dimensional run with period 1 whose first step stores p = -2, not the steepest-descent -1 |
| NonlinearCgProperties.EveryDimensionOracleConforms | argmin/src/solver/conjugategradient/nonlinear_cg.rs:85-96 | an oracle whose gradient 2x exists in every dimension satisfies the dimension condition of a step whenever the iterate, cached gradient and line search stay in the direction's dimension |
| NonlinearCgProperties.NextIterKeepsDirectionDimension | argmin/src/solver/conjugategradient/nonlinear_cg.rs:161-166 | every step keeps a direction of the same dimension, so the next step is again well formed |

## Left out

- The nested `Executor` run of the line search, its configuration and `ctrlc(false)`. This is a separate solver, modelled as one function from (oracle, x_k, g_k, f_k, p) to the next iterate or an error.
- `set_search_direction` stores the direction inside the solver's line-search field before the run. The model passes the direction to the line search instead and keeps no such field, so it does not show that this field changes on a step that later fails.
- The unwraps `op.take_op().unwrap()` and `line_state.take_param().unwrap()` of the line-search run. They are absorbed by the line-search abstraction, which either returns a point or fails.
- `take_param` and `take_grad` empty the driver's `IterState`. The model reads the driver's state and does not return it, so it does not show this emptying.
- `op.consume_op`, the merging of evaluation counters. This is counter plumbing. The model records the calls the solver itself makes instead.
- The internals of the oracle and of the β rule (Polak–Ribière and others). They are not part of this code and appear as function values.
- IEEE-754 behaviour: NaN as the β sentinel, rounding, and underflow of ‖g‖² to zero for a nonzero gradient. The model uses `real` and `Option`.
- The Euclidean norm itself. Only its square appears in the code, and it is modelled as `Dot(g, g)`.
- `new` returns `Result<Self, Error>` but always succeeds, so it is modelled as a plain constructor.
- The key/value values are strings produced by `format!` in the code. They are modelled as typed values (`Float`, `Flag`).
- Serde derives, `Clone`, the `ArgminFloat`/`argmin_math` trait bounds, the `NAME` constant and the `test_trait_impl!` test are framework glue with no behaviour.
- NonlinearCg.NextIter: requires `Conforming`, i.e. a run in one dimension n: the iterate and a cached gradient of dimension n, and an oracle and line search that return results of dimension n from inputs of dimension n. Vector arithmetic on mismatched dimensions lives in the vector library, which is not part of this model.

=== FILE: nonlinear_cg.dfy ===
/**
  The nonlinear conjugate gradient solver of
  argmin/src/solver/conjugategradient/nonlinear_cg.rs, after chapter 5 of
  Nocedal & Wright, Numerical Optimization (2006).

  The solver owns the search direction p, the last blend coefficient β and
  the restart configuration. The objective oracle, the nested line search and
  the β rule are collaborators it cannot see into; here they are function
  values. Each call returns an Outcome: the solver's state after the call
  (the source mutates `self` in place, also on a path that ends in an error),
  the collaborator calls in the order they were made, and the result.
*/
module NonlinearCg {
  import opened Wrappers
  import opened Vectors
  import opened Restart

  /** An error raised by a collaborator. The solver passes it on with `?`, unchanged. */
  datatype Error = Error(cause: string)

  /** The three places where the source panics instead of returning an error. */
  datatype PanicReason =
    | DirectionUnset   // the direction is unwrapped while absent: stepping before `init`
    | ParamUnset       // the driver's state holds no iterate to take
    | RestartIterZero  // the iteration number is reduced modulo a restart period of zero

  datatype Failure = Propagated(error: Error) | Panic(reason: PanicReason)

  /** The objective: its cost (`apply`) and its gradient, either of which may fail. */
  datatype Oracle = Oracle(apply: Vec -> Result<real, Error>, gradient: Vec -> Result<Vec, Error>)

  /**
    The nested line-search run: from x_k with gradient g_k and cost f_k along
    direction p, against the oracle, to the next iterate x_{k+1}.
  */
  type LineSearch = (Oracle, Vec, Vec, real, Vec) -> Result<Vec, Error>

  /** The β rule `update(g_k, g_{k+1}, p_k)`, e.g. Polak–Ribière. */
  type BetaRule = (Vec, Vec, Vec) -> real

  /**
    The solver record. `beta == None` stands for the NaN sentinel that marks
    "β never computed"; `restartOrthogonality == None` disables Powell's test.
  */
  datatype Solver = Solver(
    p: Option<Vec>,
    beta: Option<real>,
    lineSearch: LineSearch,
    betaMethod: BetaRule,
    restartIter: U64,
    restartOrthogonality: Option<real>)

  /** What the outer driver hands to a call: the iterate, a cached gradient, the cost and the iteration number. */
  datatype IterState = IterState(param: Option<Vec>, grad: Option<Vec>, cost: real, iter: U64)

  datatype KvValue = Float(x: real) | Flag(b: bool)

  /** The diagnostic key/value list, in the order the step emits it. */
  type Kv = seq<(string, KvValue)>

  /** What a call gives back to the driver. */
  datatype IterData = IterData(param: Vec, cost: real, grad: Vec, kv: Kv)

  /** One call the solver makes to a collaborator. */
  datatype Call =
    | CostAt(x: Vec)
    | GradientAt(x: Vec)
    | LineSearchFrom(x: Vec, g: Vec, f: real, p: Vec)

  datatype CallKind = CostCall | GradientCall | SearchCall

  function KindOf(c: Call): CallKind
  {
    match c
    case CostAt(_) => CostCall
    case GradientAt(_) => GradientCall
    case LineSearchFrom(_, _, _, _) => SearchCall
  }

  /** How many calls of one kind a trace holds. */
  function Count(calls: seq<Call>, kind: CallKind): nat
    decreases |calls|
  {
    if calls == [] then 0
    else Count(calls[..|calls| - 1], kind) + (if KindOf(calls[|calls| - 1]) == kind then 1 else 0)
  }

  datatype Outcome = Outcome(solver: Solver, calls: seq<Call>, result: Result<IterData, Failure>)

  /** At every point of dimension n where the oracle's gradient exists, it has dimension n. */
  ghost predicate GradientsIn(o: Oracle, n: nat)
  {
    forall x :: |x| == n && o.gradient(x).Success? ==> |o.gradient(x).value| == n
  }

  /** From a point, gradient and direction of dimension n the line search returns a point of dimension n. */
  ghost predicate SearchesIn(ls: LineSearch, o: Oracle, n: nat)
  {
    forall x, g, f, d :: |x| == n && |g| == n && |d| == n && ls(o, x, g, f, d).Success? ==>
      |ls(o, x, g, f, d).value| == n
  }

  /**
    A run stays in one space ℝⁿ, n the dimension of the stored direction:
    the iterate and a cached gradient have dimension n, and the oracle and
    the line search map points of dimension n to results of dimension n.
    What they do on other dimensions is not constrained.
  */
  ghost predicate Conforming(s: Solver, o: Oracle, st: IterState)
  {
    s.p.Some? ==>
      var n := |s.p.value|;
      && GradientsIn(o, n)
      && SearchesIn(s.lineSearch, o, n)
      && (st.param.Some? ==> |st.param.value| == n)
      && (st.grad.Some? ==> |st.grad.value| == n)
  }

  /** The diagnostics of one step. */
  function StepKv(beta: real, restartIter: bool, restartOrthogonality: bool): Kv
  {
    [("beta", Float(beta)), ("restart_iter", Flag(restartIter)),
     ("restart_orthogonality", Flag(restartOrthogonality))]
  }

  /** `new`: no direction yet, β unset, period `u64::MAX`, Powell's test off. */
  function New(lineSearch: LineSearch, betaMethod: BetaRule): (s: Solver)
    ensures s.p.None? && s.beta.None?
    ensures s.restartIter == U64_MAX && s.restartOrthogonality.None?
    ensures s.lineSearch == lineSearch && s.betaMethod == betaMethod
  {
    Solver(None, None, lineSearch, betaMethod, U64_MAX, None)
  }

  /** `restart_iters`: sets the restart period and nothing else. */
  function RestartIters(s: Solver, iters: U64): (r: Solver)
    ensures r.restartIter == iters
    ensures r.p == s.p && r.beta == s.beta && r.restartOrthogonality == s.restartOrthogonality
    ensures r.lineSearch == s.lineSearch && r.betaMethod == s.betaMethod
  {
    s.(restartIter := iters)
  }

  /** `restart_orthogonality`: enables Powell's test with threshold v and changes nothing else. */
  function RestartOrthogonality(s: Solver, v: real): (r: Solver)
    ensures r.restartOrthogonality == Some(v)
    ensures r.p == s.p && r.beta == s.beta && r.restartIter == s.restartIter
    ensures r.lineSearch == s.lineSearch && r.betaMethod == s.betaMethod
  {
    s.(restartOrthogonality := Some(v))
  }

  /** One link of a builder chain. */
  datatype Setting = SetRestartIters(iters: U64) | SetRestartOrthogonality(v: real)

  function ApplySetting(s: Solver, c: Setting): Solver
  {
    match c
    case SetRestartIters(n) => RestartIters(s, n)
    case SetRestartOrthogonality(v) => RestartOrthogonality(s, v)
  }

  /** A builder chain `s.restart_iters(..).restart_orthogonality(..)...`, applied left to right. */
  function Configure(s: Solver, chain: seq<Setting>): Solver
    decreases |chain|
  {
    if chain == [] then s
    else ApplySetting(Configure(s, chain[..|chain| - 1]), chain[|chain| - 1])
  }

  /**
    `init`: evaluates the cost, then the gradient, at x₀ and sets p := -1·g₀.
    Both evaluations precede the update, so a failure leaves the solver as it was.
  */
  function Init(s: Solver, o: Oracle, st: IterState): (r: Outcome)
    ensures st.param.None? ==> r == Outcome(s, [], Failure(Panic(ParamUnset)))
    ensures r.result.Failure? ==> r.solver == s
    ensures r.result.Success? <==>
      st.param.Some? && o.apply(st.param.value).Success? && o.gradient(st.param.value).Success?
    ensures st.param.Some? ==>
      var x0 := st.param.value;
      && 1 <= |r.calls| <= 2 && r.calls <= [CostAt(x0), GradientAt(x0)]
      && (o.apply(x0).Failure? ==> r.calls == [CostAt(x0)] && r.result == Failure(Propagated(o.apply(x0).error)))
      && (o.apply(x0).Success? && o.gradient(x0).Failure? ==>
            r.result == Failure(Propagated(o.gradient(x0).error)))
    ensures r.result.Success? ==>
      var x0, d := st.param.value, r.result.value;
      && d.param == x0 && d.cost == o.apply(x0).value && d.grad == o.gradient(x0).value
      && d.kv == []
      && r.calls == [CostAt(x0), GradientAt(x0)]
      && r.solver.p.Some? && |r.solver.p.value| == |d.grad|
      && (forall i :: 0 <= i < |d.grad| ==> r.solver.p.value[i] == -d.grad[i])
      && r.solver == s.(p := r.solver.p)
  {
    match st.param
    case None => Outcome(s, [], Failure(Panic(ParamUnset)))
    case Some(x0) =>
      match o.apply(x0)
      case Failure(e) => Outcome(s, [CostAt(x0)], Failure(Propagated(e)))
      case Success(cost) =>
        match o.gradient(x0)
        case Failure(e) => Outcome(s, [CostAt(x0), GradientAt(x0)], Failure(Propagated(e)))
        case Success(g0) =>
          Outcome(s.(p := Some(Scale(g0, -1.0))), [CostAt(x0), GradientAt(x0)],
                  Success(IterData(x0, cost, g0, [])))
  }

  /** g_k as `next_iter` obtains it: the driver's cached gradient, else one oracle call at x_k. */
  function StartGradient(o: Oracle, xk: Vec, cached: Option<Vec>): (seq<Call>, Result<Vec, Error>)
  {
    match cached
    case Some(g) => ([], Success(g))
    case None => ([GradientAt(xk)], o.gradient(xk))
  }

  /** The new direction -g_{k+1} + β·p_k. */
  function NewDirection(gNew: Vec, p: Vec, beta: real): (d: Vec)
    requires |gNew| == |p|
    ensures |d| == |p|
    ensures forall i :: 0 <= i < |p| ==> d[i] == -gNew[i] + beta * p[i]
    ensures beta == 0.0 ==> d == Scale(gNew, -1.0)
  {
    AddZeroScaled(Scale(gNew, -1.0), p, beta);
    Add(Scale(gNew, -1.0), Scale(p, beta))
  }

  /**
    `next_iter`: one iteration. In order: obtain g_k, run the line search
    from x_k along p, evaluate g_{k+1} at the new iterate, decide the two
    restarts, set β (zero on a restart, else the rule's value for
    (g_k, g_{k+1}, p_k)), store p := -g_{k+1} + β·p_k, and only then evaluate
    the cost at the new iterate.
  */
  function NextIter(s: Solver, o: Oracle, st: IterState): (r: Outcome)
    requires Conforming(s, o, st)
    ensures s.p.None? ==> r == Outcome(s, [], Failure(Panic(DirectionUnset)))
    ensures s.p.Some? && st.param.None? ==> r == Outcome(s, [], Failure(Panic(ParamUnset)))
    ensures r.result.Success? <==>
      (&& s.p.Some? && st.param.Some? && s.restartIter > 0
       && var p, xk := s.p.value, st.param.value;
       && (st.grad.Some? || o.gradient(xk).Success?)
       && var g := if st.grad.Some? then st.grad.value else o.gradient(xk).value;
       && s.lineSearch(o, xk, g, st.cost, p).Success?
       && var xk1 := s.lineSearch(o, xk, g, st.cost, p).value;
       && o.gradient(xk1).Success? && o.apply(xk1).Success?)
    ensures r.result.Failure? && r.result.error.Panic? ==>
      && (r.result.error.reason == DirectionUnset <==> s.p.None?)
      && (r.result.error.reason == ParamUnset <==> s.p.Some? && st.param.None?)
      && (r.result.error.reason == RestartIterZero ==> s.restartIter == 0)
    ensures r.result.Failure? && (r.calls == [] || !r.calls[|r.calls| - 1].CostAt?) ==> r.solver == s
    ensures s.p.Some? && st.param.Some? && r.result.Failure? ==>
      var p, xk := s.p.value, st.param.value;
      var pre := StartGradient(o, xk, st.grad).0;
      && pre <= r.calls
      && (st.grad.None? && o.gradient(xk).Failure? ==>
            r.calls == pre && r.result == Failure(Propagated(o.gradient(xk).error)))
      && (st.grad.Some? || o.gradient(xk).Success? ==>
            var g := if st.grad.Some? then st.grad.value else o.gradient(xk).value;
            var search := pre + [LineSearchFrom(xk, g, st.cost, p)];
            && search <= r.calls
            && (s.lineSearch(o, xk, g, st.cost, p).Failure? ==>
                  r.calls == search
                  && r.result == Failure(Propagated(s.lineSearch(o, xk, g, st.cost, p).error)))
            && (s.lineSearch(o, xk, g, st.cost, p).Success? ==>
                  var xk1 := s.lineSearch(o, xk, g, st.cost, p).value;
                  && search + [GradientAt(xk1)] <= r.calls
                  && r.calls <= search + [GradientAt(xk1), CostAt(xk1)]
                  && (o.gradient(xk1).Failure? || s.restartIter == 0 ==>
                        r.calls == search + [GradientAt(xk1)])
                  && (o.gradient(xk1).Failure? ==>
                        r.result == Failure(Propagated(o.gradient(xk1).error)))
                  && (o.gradient(xk1).Success? && s.restartIter == 0 ==>
                        r.result == Failure(Panic(RestartIterZero)))))
    ensures r.result.Success? ==>
      && s.p.Some? && st.param.Some? && s.restartIter > 0
      && var p, xk, d := s.p.value, st.param.value, r.result.value;
      && (st.grad.None? ==> o.gradient(xk).Success?)
      && var g := if st.grad.Some? then st.grad.value else o.gradient(xk).value;
      && |g| == |d.grad| == |p|
      && s.lineSearch(o, xk, g, st.cost, p) == Success(d.param)
      && o.gradient(d.param) == Success(d.grad)
      && o.apply(d.param) == Success(d.cost)
      && r.calls == StartGradient(o, xk, st.grad).0
                    + [LineSearchFrom(xk, g, st.cost, p), GradientAt(d.param), CostAt(d.param)]
      && var restartIter := IterationRestart(st.iter, s.restartIter);
      && var restartOrth := OrthogonalityRestart(s.restartOrthogonality, d.grad, g);
      && r.solver.beta.Some?
      && var beta := r.solver.beta.value;
      && (restartIter || restartOrth ==> beta == 0.0)
      && (!restartIter && !restartOrth ==> beta == s.betaMethod(g, d.grad, p))
      && d.kv == StepKv(beta, restartIter, restartOrth)
      && r.solver == s.(p := Some(NewDirection(d.grad, p, beta)), beta := Some(beta))
  {
    if s.p.None? then Outcome(s, [], Failure(Panic(DirectionUnset)))
    else if st.param.None? then Outcome(s, [], Failure(Panic(ParamUnset)))
    else
      var p, xk := s.p.value, st.param.value;
      var (startCalls, gk) := StartGradient(o, xk, st.grad);
      if gk.Failure? then Outcome(s, startCalls, Failure(Propagated(gk.error)))
      else
        var g := gk.value;
        var searchCalls := startCalls + [LineSearchFrom(xk, g, st.cost, p)];
        match s.lineSearch(o, xk, g, st.cost, p)
        case Failure(e) => Outcome(s, searchCalls, Failure(Propagated(e)))
        case Success(xk1) =>
          var gradCalls := searchCalls + [GradientAt(xk1)];
          match o.gradient(xk1)
          case Failure(e) => Outcome(s, gradCalls, Failure(Propagated(e)))
          case Success(gNew) =>
            var restartOrth := OrthogonalityRestart(s.restartOrthogonality, gNew, g);
            if s.restartIter == 0 then Outcome(s, gradCalls, Failure(Panic(RestartIterZero)))
            else
              var restartIter := IterationRestart(st.iter, s.restartIter);
              var beta := if restartIter || restartOrth then 0.0 else s.betaMethod(g, gNew, p);
              var s' := s.(p := Some(NewDirection(gNew, p, beta)), beta := Some(beta));
              var costCalls := gradCalls + [CostAt(xk1)];
              match o.apply(xk1)
              case Failure(e) => Outcome(s', costCalls, Failure(Propagated(e)))
              case Success(cost) =>
                Outcome(s', costCalls, Success(IterData(xk1, cost, gNew, StepKv(beta, restartIter, restartOrth))))
  }
}

=== FILE: nonlinear_cg_properties.dfy ===
/**
  Properties of the nonlinear conjugate gradient model that relate several
  calls or single out an edge case of the restart and direction rules.
*/
module NonlinearCgProperties {
  import opened Wrappers
  import opened Vectors
  import opened Restart
  import opened NonlinearCg

  // ---------------------------------------------------------------------------
  // Configuration

  /** The value the last `restart_iters` link of a chain sets, if any. */
  function LastIters(chain: seq<Setting>): Option<U64>
    decreases |chain|
  {
    if chain == [] then None
    else match chain[|chain| - 1]
      case SetRestartIters(n) => Some(n)
      case SetRestartOrthogonality(_) => LastIters(chain[..|chain| - 1])
  }

  /** The threshold the last `restart_orthogonality` link of a chain sets, if any. */
  function LastThreshold(chain: seq<Setting>): Option<real>
    decreases |chain|
  {
    if chain == [] then None
    else match chain[|chain| - 1]
      case SetRestartOrthogonality(v) => Some(v)
      case SetRestartIters(_) => LastThreshold(chain[..|chain| - 1])
  }

  /** Each setter applied at most once, with the given value. */
  function SetOnce(s: Solver, iters: Option<U64>, threshold: Option<real>): Solver
  {
    var s1 := if iters.Some? then RestartIters(s, iters.value) else s;
    if threshold.Some? then RestartOrthogonality(s1, threshold.value) else s1
  }

  /**
    Any chain of setters, in any order and with any repetition, configures
    the solver exactly as applying each setter once with its last value.
  */
  lemma {:induction false} ConfigureLastWins(s: Solver, chain: seq<Setting>)
    ensures Configure(s, chain) == SetOnce(s, LastIters(chain), LastThreshold(chain))
    decreases |chain|
  {
    if chain != [] {
      ConfigureLastWins(s, chain[..|chain| - 1]);
    }
  }

  /** The setters only touch the configuration: a chain leaves p, β and the collaborators as they were. */
  lemma {:induction false} ConfigureKeepsIterationState(s: Solver, chain: seq<Setting>)
    ensures Configure(s, chain).p == s.p && Configure(s, chain).beta == s.beta
    ensures Configure(s, chain).lineSearch == s.lineSearch
    ensures Configure(s, chain).betaMethod == s.betaMethod
    decreases |chain|
  {
    if chain != [] {
      ConfigureKeepsIterationState(s, chain[..|chain| - 1]);
    }
  }

  // ---------------------------------------------------------------------------
  // Lifecycle

  /** Stepping a freshly constructed solver panics before any collaborator is called. */
  lemma NextIterBeforeInitPanics(ls: LineSearch, bm: BetaRule, o: Oracle, st: IterState)
    ensures Conforming(New(ls, bm), o, st)
    ensures NextIter(New(ls, bm), o, st) == Outcome(New(ls, bm), [], Failure(Panic(DirectionUnset)))
  {
  }

  /** With the default period the iteration restart fires at iteration `u64::MAX` and nowhere else. */
  lemma NewSolverRestartsOnlyAtLastIteration(ls: LineSearch, bm: BetaRule, k: U64)
    ensures IterationRestart(k, New(ls, bm).restartIter) <==> k == U64_MAX
  {
    IterationRestartDefaultPeriod(k);
  }

  /** A successful `init` leaves a direction of the gradients' dimension, so the solver can be stepped. */
  lemma InitEstablishesDirection(s: Solver, o: Oracle, st: IterState, n: nat)
    requires GradientsIn(o, n)
    requires st.param.Some? && |st.param.value| == n
    requires Init(s, o, st).result.Success?
    ensures Init(s, o, st).solver.p.Some?
    ensures |Init(s, o, st).solver.p.value| == n
  {
  }

  /**
    The first step after `init`, with the driver caching g₀, searches along
    the steepest-descent direction -g₀ and makes no gradient call first.
  */
  lemma FirstSearchIsSteepestDescent(s: Solver, o: Oracle, st0: IterState, st1: IterState, n: nat)
    requires GradientsIn(o, n) && SearchesIn(s.lineSearch, o, n)
    requires st0.param.Some? && |st0.param.value| == n
    requires Init(s, o, st0).result.Success?
    requires st1.param.Some? && |st1.param.value| == n && st1.grad == Some(Init(s, o, st0).result.value.grad)
    ensures Conforming(Init(s, o, st0).solver, o, st1)
    ensures var g0 := Init(s, o, st0).result.value.grad;
      NextIter(Init(s, o, st0).solver, o, st1).calls[0]
        == LineSearchFrom(st1.param.value, g0, st1.cost, Scale(g0, -1.0))
  {
    var r0 := Init(s, o, st0);
    var g0 := r0.result.value.grad;
    assert r0.solver.p.value == Scale(g0, -1.0);
  }

  // ---------------------------------------------------------------------------
  // Collaborator calls

  lemma {:induction false} CountAppend(a: seq<Call>, b: seq<Call>, kind: CallKind)
    ensures Count(a + b, kind) == Count(a, kind) + Count(b, kind)
    decreases |b|
  {
    if b != [] {
      var b' := b[..|b| - 1];
      assert (a + b)[..|a + b| - 1] == a + b';
      assert (a + b)[|a + b| - 1] == b[|b| - 1];
      CountAppend(a, b', kind);
    } else {
      assert a + b == a;
    }
  }

  lemma CountSingle(c: Call, kind: CallKind)
    ensures Count([c], kind) == if KindOf(c) == kind then 1 else 0
  {
    assert [c][..0] == [];
  }

  /**
    A successful step makes one line-search run, one cost evaluation, and
    one gradient evaluation at the new iterate plus one at x_k only when the
    driver did not cache g_k.
  */
  lemma NextIterCallCounts(s: Solver, o: Oracle, st: IterState)
    requires Conforming(s, o, st)
    requires NextIter(s, o, st).result.Success?
    ensures var calls := NextIter(s, o, st).calls;
      && Count(calls, GradientCall) == (if st.grad.Some? then 1 else 2)
      && Count(calls, CostCall) == 1
      && Count(calls, SearchCall) == 1
  {
    var r := NextIter(s, o, st);
    var xk := st.param.value;
    var d := r.result.value;
    var g := if st.grad.Some? then st.grad.value else o.gradient(xk).value;
    var head := StartGradient(o, xk, st.grad).0;
    var c1, c2, c3 := LineSearchFrom(xk, g, st.cost, s.p.value), GradientAt(d.param), CostAt(d.param);
    assert r.calls == head + [c1] + [c2] + [c3];
    forall kind: CallKind
      ensures Count(r.calls, kind) == Count(head, kind) + Count([c1], kind) + Count([c2], kind) + Count([c3], kind)
    {
      CountAppend(head + [c1] + [c2], [c3], kind);
      CountAppend(head + [c1], [c2], kind);
      CountAppend(head, [c1], kind);
    }
    CountSingle(c1, GradientCall); CountSingle(c2, GradientCall); CountSingle(c3, GradientCall);
    CountSingle(c1, CostCall); CountSingle(c2, CostCall); CountSingle(c3, CostCall);
    CountSingle(c1, SearchCall); CountSingle(c2, SearchCall); CountSingle(c3, SearchCall);
    if st.grad.None? {
      CountSingle(GradientAt(xk), GradientCall);
      CountSingle(GradientAt(xk), CostCall);
      CountSingle(GradientAt(xk), SearchCall);
    }
  }

  /**
    Once p and the iterate are present, the step's first call is a gradient
    evaluation at x_k exactly when the driver supplied no cached gradient.
  */
  lemma NextIterUsesCachedGradient(s: Solver, o: Oracle, st: IterState)
    requires Conforming(s, o, st)
    requires s.p.Some? && st.param.Some?
    ensures var calls := NextIter(s, o, st).calls;
      && |calls| >= 1
      && (st.grad.None? ==> calls[0] == GradientAt(st.param.value))
      && (st.grad.Some? ==> calls[0] == LineSearchFrom(st.param.value, st.grad.value, st.cost, s.p.value))
  {
  }

  /** The error a call made by the solver returns, if it fails. */
  ghost function ErrorOf(s: Solver, o: Oracle, c: Call): Option<Error>
  {
    match c
    case CostAt(x) => if o.apply(x).Failure? then Some(o.apply(x).error) else None
    case GradientAt(x) => if o.gradient(x).Failure? then Some(o.gradient(x).error) else None
    case LineSearchFrom(x, g, f, p) =>
      if s.lineSearch(o, x, g, f, p).Failure? then Some(s.lineSearch(o, x, g, f, p).error) else None
  }

  /**
    A collaborator's error is surfaced unchanged: it is the error of the
    last call the step made, and every call before that one succeeded.
  */
  lemma NextIterPropagatesUnchanged(s: Solver, o: Oracle, st: IterState, e: Error)
    requires Conforming(s, o, st)
    requires NextIter(s, o, st).result == Failure(Propagated(e))
    ensures var calls := NextIter(s, o, st).calls;
      && |calls| >= 1
      && ErrorOf(s, o, calls[|calls| - 1]) == Some(e)
      && forall i :: 0 <= i < |calls| - 1 ==> ErrorOf(s, o, calls[i]) == None
  {
  }

  /** `init` surfaces an oracle error unchanged, from the last call it made. */
  lemma InitPropagatesUnchanged(s: Solver, o: Oracle, st: IterState, e: Error)
    requires Init(s, o, st).result == Failure(Propagated(e))
    ensures var calls := Init(s, o, st).calls;
      && |calls| >= 1
      && ErrorOf(s, o, calls[|calls| - 1]) == Some(e)
      && forall i :: 0 <= i < |calls| - 1 ==> ErrorOf(s, o, calls[i]) == None
  {
  }

  /**
    The cost at the new iterate is evaluated after p and β are stored: when
    only that evaluation fails, the solver already holds the new direction.
  */
  lemma CostFailureKeepsNewDirection(s: Solver, o: Oracle, st: IterState)
    requires Conforming(s, o, st)
    requires s.p.Some? && st.param.Some? && s.restartIter > 0
    requires st.grad.Some? || o.gradient(st.param.value).Success?
    requires var g := if st.grad.Some? then st.grad.value else o.gradient(st.param.value).value;
      && s.lineSearch(o, st.param.value, g, st.cost, s.p.value).Success?
      && var xk1 := s.lineSearch(o, st.param.value, g, st.cost, s.p.value).value;
      && o.gradient(xk1).Success? && o.apply(xk1).Failure?
    ensures var r := NextIter(s, o, st);
      var g := if st.grad.Some? then st.grad.value else o.gradient(st.param.value).value;
      var xk1 := s.lineSearch(o, st.param.value, g, st.cost, s.p.value).value;
      var gNew := o.gradient(xk1).value;
      var beta := if IterationRestart(st.iter, s.restartIter)
                     || OrthogonalityRestart(s.restartOrthogonality, gNew, g)
                  then 0.0 else s.betaMethod(g, gNew, s.p.value);
      && r.result == Failure(Propagated(o.apply(xk1).error))
      && r.solver.beta == Some(beta)
      && r.solver.p == Some(NewDirection(gNew, s.p.value, beta))
  {
  }

  // ---------------------------------------------------------------------------
  // Restarts and the direction update

  /** A period of zero panics in `k % 0` once the new gradient is known, even at iteration 0, and changes nothing. */
  lemma ZeroPeriodPanics(s: Solver, o: Oracle, st: IterState)
    requires Conforming(s, o, st)
    requires s.p.Some? && st.param.Some? && s.restartIter == 0
    requires st.grad.Some? || o.gradient(st.param.value).Success?
    requires var g := if st.grad.Some? then st.grad.value else o.gradient(st.param.value).value;
      && s.lineSearch(o, st.param.value, g, st.cost, s.p.value).Success?
      && o.gradient(s.lineSearch(o, st.param.value, g, st.cost, s.p.value).value).Success?
    ensures NextIter(s, o, st).result == Failure(Panic(RestartIterZero))
    ensures NextIter(s, o, st).solver == s
  {
  }

  /** A step that restarts, for either reason, reports β = 0 and stores the steepest-descent direction. */
  lemma RestartStoresSteepestDescent(s: Solver, o: Oracle, st: IterState)
    requires Conforming(s, o, st)
    requires NextIter(s, o, st).result.Success?
    requires var kv := NextIter(s, o, st).result.value.kv;
      kv[1].1 == Flag(true) || kv[2].1 == Flag(true)
    ensures NextIter(s, o, st).result.value.kv[0].1 == Float(0.0)
    ensures NextIter(s, o, st).solver.p == Some(Scale(NextIter(s, o, st).result.value.grad, -1.0))
  {
  }

  /** Without a restart the reported β is the rule's value for (g_k, g_{k+1}, p_k), p_k the direction before the step. */
  lemma NoRestartUsesRule(s: Solver, o: Oracle, st: IterState)
    requires Conforming(s, o, st)
    requires NextIter(s, o, st).result.Success?
    requires var kv := NextIter(s, o, st).result.value.kv;
      kv[1].1 == Flag(false) && kv[2].1 == Flag(false)
    ensures var d := NextIter(s, o, st).result.value;
      var g := if st.grad.Some? then st.grad.value else o.gradient(st.param.value).value;
      d.kv[0].1 == Float(s.betaMethod(g, d.grad, s.p.value))
  {
  }

  /** With period 1 every step from iteration 1 on stores the steepest-descent direction -g_{k+1}. */
  lemma PeriodOneIsSteepestDescentFromIterationOne(s: Solver, o: Oracle, st: IterState)
    requires Conforming(s, o, st)
    requires s.restartIter == 1 && st.iter >= 1
    requires NextIter(s, o, st).result.Success?
    ensures NextIter(s, o, st).solver.p == Some(Scale(NextIter(s, o, st).result.value.grad, -1.0))
  {
    IterationRestartPeriodOne(st.iter);
  }

  /** ... but at iteration 0 even period 1 blends in the rule's β unless Powell's test fires. */
  lemma PeriodOneStillBlendsAtIterationZero(s: Solver, o: Oracle, st: IterState)
    requires Conforming(s, o, st)
    requires s.restartIter == 1 && st.iter == 0 && s.restartOrthogonality.None?
    requires NextIter(s, o, st).result.Success?
    ensures var d := NextIter(s, o, st).result.value;
      var g := if st.grad.Some? then st.grad.value else o.gradient(st.param.value).value;
      NextIter(s, o, st).solver.beta == Some(s.betaMethod(g, d.grad, s.p.value))
  {
    IterationRestartNeverAtZero(1);
  }

  // Collaborators of a one-dimensional example.
  function FlatCost(x: Vec): Result<real, Error> { Success(0.0) }
  function UnitSlope(x: Vec): Result<Vec, Error> { Success([1.0]) }
  function StayPut(o: Oracle, x: Vec, g: Vec, f: real, p: Vec): Result<Vec, Error> { Success(x) }
  function BetaOne(g: Vec, gNew: Vec, p: Vec): real { 1.0 }

  /**
    A concrete run where `restart_iters(1)` is not steepest descent: in one
    dimension with constant gradient 1, a rule returning β = 1 and a line
    search that stays put, the step at iteration 0 stores p = -2, not -1.
  */
  lemma PeriodOneFirstStepCounterexample()
    ensures var o := Oracle(FlatCost, UnitSlope);
      var s := RestartIters(New(StayPut, BetaOne), 1);
      var r0 := Init(s, o, IterState(Some([0.0]), None, 0.0, 0));
      var st1 := IterState(Some([0.0]), Some([1.0]), 0.0, 0);
      && r0.solver.p == Some([-1.0])
      && Conforming(r0.solver, o, st1)
      && NextIter(r0.solver, o, st1).result.Success?
      && NextIter(r0.solver, o, st1).solver.p == Some([-2.0])
  {
    var o := Oracle(FlatCost, UnitSlope);
    var s := RestartIters(New(StayPut, BetaOne), 1);
    var r0 := Init(s, o, IterState(Some([0.0]), None, 0.0, 0));
    assert |r0.solver.p.value| == 1 && r0.solver.p.value[0] == -1.0;
    assert r0.solver.p.value == [-1.0];
    var st1 := IterState(Some([0.0]), Some([1.0]), 0.0, 0);
    IterationRestartNeverAtZero(1);
    var r1 := NextIter(r0.solver, o, st1);
    assert |r1.solver.p.value| == 1 && r1.solver.p.value[0] == -2.0;
    assert r1.solver.p.value == [-2.0];
  }

  /** Each step keeps the direction in the gradients' space, so the next step is well formed. */
  lemma NextIterKeepsDirectionDimension(s: Solver, o: Oracle, st: IterState, st': IterState)
    requires Conforming(s, o, st) && s.p.Some?
    requires st'.param.Some? ==> |st'.param.value| == |s.p.value|
    requires st'.grad.Some? ==> |st'.grad.value| == |s.p.value|
    ensures NextIter(s, o, st).solver.p.Some?
    ensures |NextIter(s, o, st).solver.p.value| == |s.p.value|
    ensures Conforming(NextIter(s, o, st).solver, o, st')
  {
  }

  /** The gradient of ‖x‖², 2x, defined in every dimension. */
  function DoubleIt(x: Vec): Result<Vec, Error> { Success(Scale(x, 2.0)) }

  /**
    An oracle whose gradient is defined in every dimension is admitted: a
    run conforms as soon as its iterate, cached gradient and line search
    stay in the dimension of the direction.
  */
  lemma EveryDimensionOracleConforms(s: Solver, st: IterState)
    requires s.p.Some?
    requires SearchesIn(s.lineSearch, Oracle(FlatCost, DoubleIt), |s.p.value|)
    requires st.param.Some? ==> |st.param.value| == |s.p.value|
    requires st.grad.Some? ==> |st.grad.value| == |s.p.value|
    ensures Conforming(s, Oracle(FlatCost, DoubleIt), st)
  {
  }
}

=== FILE: restart.dfy ===
/**
  The two restart tests of the nonlinear conjugate gradient step
  (argmin/src/solver/conjugategradient/nonlinear_cg.rs): the periodic
  iteration restart and Powell's orthogonality restart. Either one sets
  the blend coefficient β to zero, so that the next search direction is the
  steepest-descent direction.
*/
module Restart {
  import opened Wrappers
  import opened Vectors

  const U64_MAX: int := 0xFFFF_FFFF_FFFF_FFFF

  /** Rust's `u64`: the iteration counter and the restart period. */
  type U64 = x: int | 0 <= x <= U64_MAX

  /** k is reached from 0 in whole steps of n: the reference meaning of "k is a multiple of n". */
  predicate MultipleOf(k: nat, n: nat)
    requires n > 0
    decreases k
  {
    k == 0 || (k >= n && MultipleOf(k - n, n))
  }

  lemma ModShift(k: int, n: int)
    requires n > 0 && k >= n
    ensures (k - n) % n == k % n
  {
    var q, r := (k - n) / n, (k - n) % n;
    assert k - n == q * n + r;
    assert k == (q + 1) * n + r;
    ModUnique(k, n, q + 1, r);
  }

  /** Euclidean division has one remainder. */
  lemma ModUnique(k: int, n: int, q: int, r: int)
    requires n > 0 && 0 <= r < n && k == q * n + r
    ensures k % n == r
  {
    var q', r' := k / n, k % n;
    assert k == q' * n + r';
    if q' > q {
      assert (q' - q) * n == q' * n - q * n;
      MulAtLeast(q' - q, n);
    } else if q' < q {
      assert (q - q') * n == q * n - q' * n;
      MulAtLeast(q - q', n);
    }
  }

  lemma MulAtLeast(a: int, n: int)
    requires a >= 1 && n > 0
    ensures a * n >= n
  {
  }

  lemma {:induction false} ModZeroIffMultipleOf(k: nat, n: nat)
    requires n > 0
    ensures k % n == 0 <==> MultipleOf(k, n)
    decreases k
  {
    if k >= n {
      ModShift(k, n);
      ModZeroIffMultipleOf(k - n, n);
    }
  }

  /**
    The iteration restart of `next_iter` at iteration k with period n:
    `(k % n == 0) && k != 0`. The source evaluates `k % n` first, so a
    period of zero is a division by zero; the caller handles that case.
  */
  function IterationRestart(k: U64, n: U64): (r: bool)
    requires n > 0
    ensures r <==> k > 0 && MultipleOf(k, n)
  {
    ModZeroIffMultipleOf(k, n);
    k % n == 0 && k != 0
  }

  /** Iteration 0 never restarts, whatever the period, even a period of 1. */
  lemma IterationRestartNeverAtZero(n: U64)
    requires n > 0
    ensures !IterationRestart(0, n)
  {
  }

  /** With period 1 every iteration but the first restarts. */
  lemma IterationRestartPeriodOne(k: U64)
    ensures IterationRestart(k, 1) <==> k >= 1
  {
    assert k % 1 == 0;
  }

  /** The default period `u64::MAX` restarts at the last representable iteration and nowhere else. */
  lemma IterationRestartDefaultPeriod(k: U64)
    ensures IterationRestart(k, U64_MAX) <==> k == U64_MAX
  {
    if k < U64_MAX {
      ModUnique(k, U64_MAX, 0, k);
    } else {
      ModUnique(k, U64_MAX, 1, 0);
    }
  }

  /** Every positive multiple m·n of the period restarts. */
  lemma {:induction false} IterationRestartAtMultiples(m: nat, n: U64)
    requires n > 0 && m >= 1 && m * n <= U64_MAX
    ensures IterationRestart(m * n, n)
    decreases m
  {
    if m > 1 {
      assert (m - 1) * n == m * n - n;
      IterationRestartAtMultiples(m - 1, n);
      assert MultipleOf((m - 1) * n, n);
    }
  }

  /** |⟨gNew, g⟩| / ‖gNew‖², the measure of how far two consecutive gradients are from orthogonal. */
  function OrthogonalityRatio(gNew: Vec, g: Vec): real
    requires |gNew| == |g|
    requires NormSq(gNew) != 0.0
  {
    Abs(Dot(gNew, g)) / NormSq(gNew)
  }

  lemma DivAtLeast(a: real, d: real, v: real)
    requires d > 0.0
    ensures a / d >= v <==> a >= v * d
  {
    assert a == (a / d) * d;
    if a / d >= v {
      assert (a / d) * d >= v * d;
    } else {
      assert (a / d) * d < v * d;
    }
  }

  /**
    Powell's restart test with optional threshold ν. The source divides by
    ‖gNew‖² unguarded; for the zero vector that is 0/0, a NaN in IEEE
    arithmetic, and a NaN never compares `>=`, so the test is false there.
  */
  function OrthogonalityRestart(threshold: Option<real>, gNew: Vec, g: Vec): (r: bool)
    requires |gNew| == |g|
    ensures threshold.None? ==> !r
    ensures IsZero(gNew) ==> !r
    ensures threshold.Some? && NormSq(gNew) != 0.0 ==>
      (r <==> Abs(Dot(gNew, g)) >= threshold.value * NormSq(gNew))
  {
    ZeroVectorHasZeroNorm(gNew);
    NormSqNonNegative(gNew);
    match threshold
    case None => false
    case Some(v) =>
      if NormSq(gNew) == 0.0 then false
      else
        DivAtLeast(Abs(Dot(gNew, g)), NormSq(gNew), v);
        OrthogonalityRatio(gNew, g) >= v
  }

  /** A threshold of zero or below restarts whenever the new gradient is nonzero. */
  lemma NonPositiveThresholdAlwaysRestarts(v: real, gNew: Vec, g: Vec)
    requires |gNew| == |g|
    requires v <= 0.0 && NormSq(gNew) != 0.0
    ensures OrthogonalityRestart(Some(v), gNew, g)
  {
    NormSqNonNegative(gNew);
    assert v * NormSq(gNew) <= 0.0;
  }

  /** Exactly orthogonal consecutive gradients never trigger a restart under a positive threshold. */
  lemma OrthogonalGradientsDoNotRestart(v: real, gNew: Vec, g: Vec)
    requires |gNew| == |g|
    requires v > 0.0 && Dot(gNew, g) == 0.0
    ensures !OrthogonalityRestart(Some(v), gNew, g)
  {
    NormSqNonNegative(gNew);
    if NormSq(gNew) != 0.0 {
      assert v * NormSq(gNew) > 0.0;
    }
  }
}

=== FILE: vectors.dfy ===
/**
  The vector operations the solver needs on its parameter space: scaling,
  addition and the inner product, over real coordinates. The Euclidean norm
  only ever appears squared, so it is modelled as the inner product of a
  vector with itself.
*/
module Vectors {

  /** A point, a gradient or a search direction. */
  type Vec = seq<real>

  /** a·v */
  function Scale(v: Vec, a: real): (r: Vec)
    ensures |r| == |v|
    ensures forall i :: 0 <= i < |v| ==> r[i] == a * v[i]
  {
    seq(|v|, i requires 0 <= i < |v| => a * v[i])
  }

  /** u + v, for vectors of one dimension */
  function Add(u: Vec, v: Vec): (r: Vec)
    requires |u| == |v|
    ensures |r| == |u|
    ensures forall i :: 0 <= i < |u| ==> r[i] == u[i] + v[i]
  {
    seq(|u|, i requires 0 <= i < |u| => u[i] + v[i])
  }

  /** ⟨u, v⟩ */
  function Dot(u: Vec, v: Vec): real
    requires |u| == |v|
  {
    if |u| == 0 then 0.0 else u[0] * v[0] + Dot(u[1..], v[1..])
  }

  /** ‖v‖² */
  function NormSq(v: Vec): real
  {
    Dot(v, v)
  }

  function Abs(x: real): real
  {
    if x < 0.0 then -x else x
  }

  /** Every coordinate of v is zero. */
  predicate IsZero(v: Vec)
  {
    forall i :: 0 <= i < |v| ==> v[i] == 0.0
  }

  lemma {:induction false} NormSqNonNegative(v: Vec)
    ensures NormSq(v) >= 0.0
    decreases |v|
  {
    if |v| > 0 {
      NormSqNonNegative(v[1..]);
    }
  }

  /** The zero vector is orthogonal to everything. */
  lemma {:induction false} DotZeroLeft(u: Vec, v: Vec)
    requires |u| == |v|
    requires IsZero(u)
    ensures Dot(u, v) == 0.0
    decreases |u|
  {
    if |u| > 0 {
      assert IsZero(u[1..]) by {
        forall i | 0 <= i < |u[1..]|
          ensures u[1..][i] == 0.0
        {
          assert u[1..][i] == u[i + 1];
        }
      }
      DotZeroLeft(u[1..], v[1..]);
    }
  }

  lemma ZeroVectorHasZeroNorm(v: Vec)
    ensures IsZero(v) ==> NormSq(v) == 0.0
  {
    if IsZero(v) {
      DotZeroLeft(v, v);
    }
  }

  /** Blending in a direction with weight zero leaves u unchanged. */
  lemma AddZeroScaled(u: Vec, v: Vec, a: real)
    requires |u| == |v|
    ensures a == 0.0 ==> Add(u, Scale(v, a)) == u
  {
  }
}

=== FILE: wrappers.dfy ===
/** Option and Result, the two failure-carrying datatypes the model uses. */
module Wrappers {

  /** A value that may be absent, as Rust's `Option<T>`. */
  datatype Option<T> = None | Some(value: T)

  /** The outcome of a fallible call, as Rust's `Result<T, E>`. */
  datatype Result<T, E> = Success(value: T) | Failure(error: E)
}
